=== FILE: README.md ===
# Jaffer chat backend and fact engine, modelled in Dafny

This project models the core of the Jaffer chatbot:

- the FastAPI backend, `backend/main.py`;
- the native fact engine it calls, `backend/engine/search.cpp`.

For each request, POST /chat runs the fact engine on the user's message. It reads
the engine's stdout as a "fact | mood" feed. When the local fact says
"No data found", it escalates to a web search. It then builds a system prompt with
a pinned date and four mandatory rules, and asks the language model. The exchange
is saved only when the model answers. GET /history previews the ten newest user
messages, and POST /clear empties the history. At start-up the profile table is
seeded with INSERT OR IGNORE.

The fact engine lower-cases the query and classifies it as Positive, Negative or
Neutral by keyword. It then prints the first knowledge line that contains the
query's first three characters, as `VIBE|FACT`.

Modules, one per file:

| module | file | models |
|---|---|---|
| `Text` | text.dfy | Python `in`, `str.split`, `str.join` and `str.strip`, the newline translation of a text-mode pipe, and C++ `find` and `tolower` |
| `Effects` | effects.dfy | an outside call that either returns a value or raises |
| `Engine` | engine.dfy | search.cpp: `analyzeVibe`, the `getline` loop, the argc guard and the output line |
| `Feed` | feed.dfy | `get_cpp_intelligence` and the feed split in `chat` |
| `Resolver` | resolver.dfy | the web-search escalation |
| `Prompt` | prompt.dfy | the system-prompt template, line by line |
| `Store` | store.dfy | the `profile` and `history` tables, `init_db`, GET /history and POST /clear |
| `Chat` | chat.dfy | the POST /chat handler end to end |
| `Integration` | integration.dfy | the engine's real output as the backend parses it |

The outside world is modelled as parameters, not effects:

- The engine subprocess, the search client and the language model are function
  fields of `Chat.Env`. Each returns `Effects.Outcome`: `Ok(value)` or `Raised`.
- The engine field takes the message, which the backend passes as the one argument
  after the program path `data_engine/search.exe`. It gives the exit status and
  the stdout as the process wrote them. The text-mode newline translation and the
  stripping are modelled in `Feed.LocalIntelligence`.
- A missing search client is `Resolver.NoSearchTool`.
- The knowledge file is the engine's sequence of lines.
- The database is the value `Store.Db`.

In several places the code itself suggests one behaviour and does another. The
model follows what the code does:

- The mood is not trimmed, although the fact is. The whole engine output is
  stripped (main.py line 75), and when the prompt is built the fact and the web
  data are stripped again (lines 115-116); the mood never is. See
  `Feed.MoodKeepsSpaces`.
- The `else "No data found."` default on the `parts[0]` line (main.py line 94) is
  dead code. `str.split` always returns at least one part, so an empty feed gives
  an empty fact. See `Feed.EmptyFeed`.
- The fallback string on main.py line 77 suggests that a failed engine run reads
  as "no data". But `subprocess.run` is called without `check=True`, so a non-zero
  exit status is not a failure: only a raised exception gives the fallback feed.
  See `Chat.EngineFeedReachesPrompt`. The backend always passes the program path
  and the message, so the engine's own non-zero exit, for a missing argument
  (search.cpp line 18), never happens from the backend. The non-zero exit the
  backend can meet is a crash, and that is one of the runs the opaque engine field
  may return. `Integration.EngineUsageErrorReadsEmpty` shows what a run without
  output would read as.
- The persona name is looked up (main.py lines 104-108) but never used in the
  prompt. See `Chat.ReplyIgnoresProfile`.
- The engine's comment says its `VIBE|FACT` line is "for Python to parse"
  (search.cpp line 33). But it prints a bare bar, and the backend splits on
  `" | "`. So the whole engine line, vibe included, becomes the local fact, and the
  mood stays "NEUTRAL". See `Integration.EngineFeedIsWholeFact`.
- The backend escalates on "No data found" (main.py line 98), but the engine's
  "no match" text is "No local facts found." (search.cpp line 23). So a
  knowledge-base miss never triggers a web search. See
  `Integration.EngineMissNeverEscalates`.

## Model

| member | source | states |
|---|---|---|
| `Text.Split` | backend/main.py:93 | a split always gives at least one piece, and the first piece is a prefix of the text; its partners are `Text.JoinSplit` (joining restores the text) and `Text.SplitPiecesFree` (no piece holds the separator) |
| `Text.JoinSplit` | backend/main.py:93 | splitting on a non-empty separator loses nothing: joining the pieces with the separator gives back the text |
| `Text.SplitPiecesFree` | backend/main.py:93 | no piece of a split contains the separator |
| `Text.Strip` | backend/main.py:75 | the stripped text is the slice of the input that starts where its leading whitespace ends; everything before and after that slice is whitespace (Python's `str.isspace` set), and the slice itself neither starts nor ends with whitespace |
| `Text.StripIdempotent` | backend/main.py:115-116 | stripping twice is the same as stripping once |
| `Text.Newlines` | backend/main.py:74 | the text-mode translation `replace("\r\n", "\n").replace("\r", "\n")`, which never lengthens the text; its partners `Text.NewlinesDropsCR`, `Text.NewlinesNoCR`, `Text.NewlinesConcat` and `Text.NewlinesConcatCR` pin it to those two replacements |
| `Text.NewlinesDropsCR` | backend/main.py:74 | after the text-mode newline translation no carriage return is left |
| `Text.NewlinesNoCR` | backend/main.py:74 | text without a carriage return passes the translation unchanged |
| `Text.NewlinesConcat` | backend/main.py:74 | the translation works piece by piece when the first piece does not end in a carriage return |
| `Text.NewlinesConcatCR` | backend/main.py:74 | a carriage return ending the first piece and a line feed starting the second become one line feed |
| `Engine.AnalyzeVibe` | backend/engine/search.cpp:10-15 | the vibe is one of three labels: Positive exactly when the lower-cased prompt contains "happy" or "great"; Negative exactly when it contains neither of those but "sad" or "bad"; otherwise Neutral |
| `Engine.VibeIgnoresCase` | backend/engine/search.cpp:11 | prompts that differ only in ASCII letter case get the same vibe |
| `Engine.PositiveDominates` | backend/engine/search.cpp:12-13 | a positive keyword anywhere makes the vibe Positive, whatever surrounds it |
| `Engine.QueryKey` | backend/engine/search.cpp:27 | the search key is a prefix of the query, of length three or the whole query when shorter |
| `Engine.BestMatch` | backend/engine/search.cpp:22-31 | the reported fact is the first knowledge line that contains the key; with no such line it is "No local facts found." |
| `Engine.SearchKnowledge` | backend/engine/search.cpp:26-31 | the line loop with its early `break` computes the same first match |
| `Engine.EngineMain` | backend/engine/search.cpp:17-36 | exit status 0 exactly when a query argument is present; otherwise status 1 and no output; the output of a successful run is non-empty and ends with a newline |
| `Engine.OutputRoundTrip` | backend/engine/search.cpp:33-34 | the printed line decodes back to the query's vibe and the fact found for it |
| `Feed.LocalIntelligence` | backend/main.py:71-77 | a run that raised gives the fixed fallback feed; a finished run, whatever its exit status, gives exactly its stdout with each CR LF pair and each lone CR turned into one LF, then stripped; the result has no whitespace at either end and no carriage return |
| `Feed.ParseFeed` | backend/main.py:93-95 | the fact is the text before the leftmost delimiter (space, bar, space), or the whole feed when there is none; the mood is the text after that delimiter up to the next one, or to the end when there is no next one; with no delimiter at all the mood is "NEUTRAL"; neither contains the delimiter |
| `Feed.ParseFormatted` | backend/main.py:93-95 | a feed written as fact, delimiter, mood parses back to that fact and mood |
| `Feed.ParseIgnoresExtraSegments` | backend/main.py:94-95 | segments after the second are dropped |
| `Feed.FallbackFeed` | backend/main.py:77 | the fallback feed parses to the fact "No data found." and the mood "User mood is NEUTRAL." |
| `Feed.EmptyFeed` | backend/main.py:94 | an empty feed gives an empty fact and the mood "NEUTRAL" |
| `Feed.MoodKeepsSpaces` | backend/main.py:95 | the mood keeps the spaces around it |
| `Resolver.ShouldEscalate` | backend/main.py:98 | escalation happens exactly when "No data found" occurs at some position of the fact and a search client exists, so only a fact at least as long as the sentinel can escalate |
| `Resolver.SearchQuery` | backend/main.py:100 | the search query is the user's message verbatim followed by " today February 10 2026" |
| `Resolver.SearchQueryInjective` | backend/main.py:100 | two messages give the same search query exactly when they are equal |
| `Resolver.WebData` | backend/main.py:97-102 | web data is non-empty only when the fact contains "No data found", a search client exists and the search returned it; a search that raised leaves it empty |
| `Resolver.FallbackEscalates` | backend/main.py:98 | the fallback fact escalates exactly when a search client exists |
| `Prompt.AssemblePrompt` | backend/main.py:110-123 | for every fact and web data, the prompt's lines are the fixed preamble, the LOCAL and WEB lines (split only at line breaks in the stripped data), and the fixed rules block |
| `Prompt.RulesAlwaysPresent` | backend/main.py:118-123 | for any data, the four rules are the last lines but one, verbatim and in order, and the prompt has at least fourteen lines |
| `Prompt.PromptFeedLines` | backend/main.py:114-116 | with single-line data the prompt has exactly fourteen lines, and LOCAL and WEB carry the stripped data unchanged |
| `Store.InitDb` | backend/main.py:33-42 | start-up keeps history and existing profile values, and adds only the seed keys that are missing, with their seed values |
| `Store.InitDbIdempotent` | backend/main.py:36-40 | running start-up twice is the same as running it once |
| `Store.PersonaName` | backend/main.py:106-108 | the lookup gives the stored name when the profile has a `name` row, else "User"; `Store.PersonaAfterInit` pins it after start-up and `Chat.ReplyIgnoresProfile` shows it never reaches the response |
| `Store.PersonaIgnoresOtherKeys` | backend/main.py:106 | the query selects only `key='name'`: writing any other profile key leaves the persona unchanged |
| `Store.PersonaAfterInit` | backend/main.py:106-108 | after start-up the name lookup finds the stored name, or "Yash" when none was stored |
| `Store.NewestUserContents` | backend/main.py:140 | the listing is every user row's content in reverse insertion order: it is as long as the oldest-first list of user rows, and entry k is the k-th user row counting back from the newest |
| `Store.NewestAfterAppend` | backend/main.py:127-128 | a newly added row comes first in the newest-first listing exactly when it is a user row |
| `Store.Truncate` | backend/main.py:143 | a preview is leading characters of the content followed by "...": short content is kept whole, and longer content gives exactly 25 characters and then "..." |
| `Store.HistoryPreview` | backend/main.py:137-143 | the preview has ten entries, or one per user row when there are fewer; entry k is the preview of the k-th newest user row |
| `Store.PreviewAfterExchange` | backend/main.py:125-143 | after an exchange the user's message heads the preview, and the oldest entry drops out when there were already ten |
| `Store.Clear` | backend/main.py:145-152 | clearing empties the history, keeps the profile, and leaves an empty preview |
| `Chat.Respond` | backend/main.py:125-134 | a reply comes back exactly when the model answered, with the model's text; then the user row and the bot row are appended in that order; otherwise a 500 "Core Inference Failure" with the store untouched; the profile is never written |
| `Chat.HandleChat` | backend/main.py:88-134 | the same promises for the whole handler, with the model asked for the assembled system prompt followed by the user's message |
| `Chat.ChatHistoryPreview` | backend/main.py:127-143 | a reply puts the message at the head of the preview; a failure leaves the preview as it was |
| `Chat.ReplyIgnoresProfile` | backend/main.py:104-108 | the response does not depend on the stored profile or persona name |
| `Chat.EngineDownEscalates` | backend/main.py:71-102 | when the engine call raises, the fact is "No data found."; with a search client the search result becomes the web data; without one the web data is empty |
| `Chat.EngineAndSearchDown` | backend/main.py:110-119 | with neither engine nor search, the prompt reads LOCAL "No data found." and an empty WEB line |
| `Chat.EngineFeedReachesPrompt` | backend/main.py:92-116 | an engine line of fact, delimiter and mood, whatever the exit status, gives that fact and mood, and the fact is the LOCAL line verbatim when it does not call for a search |
| `Chat.PriceFlowsUnchanged` | backend/main.py:120 | the engine line "₹15,791", delimiter, "CALM" puts "₹15,791" on the LOCAL line unaltered |
| `Integration.EngineRawFeed` | backend/engine/search.cpp:34 | the backend's raw feed from an engine run is the vibe, a bar, and the matched line with its line breaks translated and its trailing whitespace removed |
| `Integration.NewlinesLineEnd` | backend/main.py:74-75 | the newline ending the engine's line is gone after translation and stripping, and so is a carriage return just before it |
| `Integration.StripBarredLine` | backend/main.py:74-75 | reading a printed `tag`, bar, line, newline output in text mode and stripping it keeps the tag and the bar and trims only the end of the translated line |
| `Integration.ParseBarredLine` | backend/main.py:93-95 | a feed of a space-free tag, a bar and a line is one whole fact with the mood "NEUTRAL" exactly when the line has no delimiter |
| `Integration.BarredLineEscalation` | backend/main.py:98 | such a feed with a tag shorter than "No data found" escalates exactly when the line contains the sentinel and a search client exists |
| `Integration.EngineFeedIsWholeFact` | backend/main.py:93-95 | the whole engine line becomes the fact exactly when the matched line has no delimiter, and then the mood is "NEUTRAL" |
| `Integration.EngineEscalation` | backend/main.py:98 | when the matched line has no delimiter (space, bar, space), an engine answer escalates exactly when that line contains "No data found" and a search client exists |
| `Integration.EngineMissNeverEscalates` | backend/engine/search.cpp:23 | a query matching no knowledge line never escalates to web search |
| `Integration.EngineUsageErrorReadsEmpty` | backend/engine/search.cpp:18 | without the query argument the engine exits with 1; a run like that, which the backend's two-argument call never makes, would read as an empty fact, which does not escalate |

## Left out

- Process spawning, the five-second timeout and UTF-8 decoding of stdout: any of them failing is one `Raised` outcome of the engine call.
- The knowledge file is given as its lines. The file name, the working directory and a file that fails to open (read as no lines) are not modelled.
- Engine.QueryKey: counts characters where `substr(0, 3)` counts bytes. The two differ only for non-ASCII queries.
- Engine.AnalyzeVibe: lower-cases ASCII letters only, as `::tolower` does in the C locale. Other locales are not modelled.
- The language model, DuckDuckGo search and their start-up fallbacks: `_DummyLLM`, and a `None` search tool when the import fails. They are opaque parameters. The dummy reply text is not modelled.
- FastAPI routing, CORS, request validation, JSON encoding and `uvicorn` start-up.
- GET /profile is a plain read of the profile table, with no logic of its own.
- SQLite connections, commits and storage errors. The tables are a value. A failure while writing the history rows is not modelled.
- Logging of warnings.
- Concurrent requests. Each request is a function of the store before it.
- Chat.HandleChat: the history rows get AUTOINCREMENT ids. These are modelled as positions in a sequence, which keeps the same newest-first order.
- `str(response.content)`: the model's answer is taken to be a string already.

=== FILE: chat.dfy ===
/**
 The POST /chat handler of backend/main.py end to end: run the fact engine on the
 message, split its feed, escalate to web search when the local fact says there is
 no data, assemble the system prompt, ask the model, and persist the exchange only
 when the model answered. The engine subprocess, the search client and the model are
 the parameters of `Env`; each either returns or raises.
 */
module Chat {
  import opened Text
  import opened Effects
  import Engine
  import Feed
  import Resolver
  import Prompt
  import opened Store

  const FAILURE_STATUS := 500
  const FAILURE_DETAIL := "Core Inference Failure"

  /** One (role, content) pair handed to the model. */
  datatype Message = Message(role: string, content: string)

  /**
   The outside world as seen by one request. `engine` runs the engine binary
   `data_engine/search.exe` with the message as its one argument, and gives the
   exit status and the stdout exactly as the process wrote them, or raises (the
   binary cannot be spawned, it runs past the 5-second timeout, or its output is
   not UTF-8). The text-mode newline translation and the stripping happen in
   `Feed.LocalIntelligence`, not here.
   */
  datatype Env = Env(
    engine: string -> Outcome<Engine.Run>,
    search: Resolver.SearchTool,
    llm: seq<Message> -> Outcome<string>)

  /** The response: `{"reply": …}`, or the HTTP error raised instead. */
  datatype ChatResult = Reply(text: string) | HttpError(status: int, detail: string)

  /** The fact and mood the backend reads from the engine for this message. */
  function LocalFeed(message: string, env: Env): Feed.LocalFact
  {
    Feed.ParseFeed(Feed.LocalIntelligence(env.engine(message)))
  }

  /** `live_web_data` for this message. */
  function WebFeed(message: string, env: Env): string
  {
    Resolver.WebData(message, LocalFeed(message, env).fact, env.search)
  }

  /** The system prompt; the persona lookup the handler also makes does not enter it. */
  function SystemPrompt(message: string, env: Env): string
  {
    Prompt.AssemblePrompt(LocalFeed(message, env).fact, WebFeed(message, env))
  }

  /** The two messages sent to the model: the system prompt, then the user's message. */
  function ModelInput(message: string, env: Env): seq<Message>
  {
    [Message("system", SystemPrompt(message, env)), Message("user", message)]
  }

  /**
   The `try` block of `chat` once the model call has returned or raised: a reply exactly
   when the model answered, and then the user row and the bot row are appended in that
   order; otherwise the handler fails with 500 and the store is left as it was. The
   profile is never written.
   */
  function Respond(message: string, answer: Outcome<string>, db: Db): (out: (ChatResult, Db))
    ensures out.1.profile == db.profile
    ensures out.0.Reply? <==> answer.Ok?
    ensures out.0.Reply? ==>
      && answer == Ok(out.0.text)
      && out.1.history == db.history + [Turn(User, message), Turn(Bot, out.0.text)]
    ensures out.0.HttpError? ==> out.0 == HttpError(FAILURE_STATUS, FAILURE_DETAIL) && out.1 == db
  {
    match answer
    case Ok(content) =>
      (Reply(content), Db(db.profile, db.history + [Turn(User, message), Turn(Bot, content)]))
    case Raised =>
      (HttpError(FAILURE_STATUS, FAILURE_DETAIL), db)
  }

  /** `chat`: the model is asked with the assembled prompt and its outcome decides the response. */
  function HandleChat(message: string, env: Env, db: Db): (out: (ChatResult, Db))
    ensures out.1.profile == db.profile
    ensures out.0.Reply? <==> env.llm(ModelInput(message, env)).Ok?
    ensures out.0.Reply? ==>
      && env.llm(ModelInput(message, env)) == Ok(out.0.text)
      && out.1.history == db.history + [Turn(User, message), Turn(Bot, out.0.text)]
    ensures out.0.HttpError? ==> out.0 == HttpError(FAILURE_STATUS, FAILURE_DETAIL) && out.1 == db
  {
    Respond(message, env.llm(ModelInput(message, env)), db)
  }

  /** After a reply the message heads the history preview; after a failure the preview is unchanged. */
  lemma ChatHistoryPreview(message: string, answer: Outcome<string>, db: Db)
    ensures var out := Respond(message, answer, db);
      var before := HistoryPreview(db.history);
      && (out.0.Reply? ==>
            HistoryPreview(out.1.history)
              == [Truncate(message)] + before[..if |before| < PREVIEW_COUNT then |before| else PREVIEW_COUNT - 1])
      && (out.0.HttpError? ==> HistoryPreview(out.1.history) == before)
  {
    if answer.Ok? {
      PreviewAfterExchange(db.history, message, answer.value);
    }
  }

  /** The stored profile, persona name included, has no influence on the response. */
  lemma ReplyIgnoresProfile(message: string, env: Env, db1: Db, db2: Db)
    ensures HandleChat(message, env, db1).0 == HandleChat(message, env, db2).0
  {
  }

  /** A failed engine call reads as "no data" and escalates to search whenever a client exists. */
  lemma EngineDownEscalates(message: string, env: Env)
    requires env.engine(message).Raised?
    ensures LocalFeed(message, env) == Feed.LocalFact(Feed.NO_DATA_FACT, Feed.FALLBACK_MOOD)
    ensures env.search.NoSearchTool? ==> WebFeed(message, env) == ""
    ensures env.search.SearchTool? && env.search.run(Resolver.SearchQuery(message)).Ok? ==>
      WebFeed(message, env) == env.search.run(Resolver.SearchQuery(message)).value
  {
    Feed.FallbackFeed();
    Resolver.FallbackEscalates(env.search);
  }

  /** A trimmed single-line fact with no web data gives the fourteen-line prompt carrying the fact verbatim. */
  lemma LocalOnlyPromptLines(fact: string)
    requires fact == [] || (!IsSpace(fact[0]) && !IsSpace(fact[|fact| - 1]))
    requires '\n' !in fact
    ensures Split(Prompt.AssemblePrompt(fact, ""), Prompt.NL)
         == Prompt.HEAD_LINES + [Prompt.LOCAL_LABEL + fact, Prompt.WEB_LABEL] + Prompt.TAIL_LINES
  {
    TrimmedFeedLines(fact);
    Prompt.PromptFeedLines(fact, "");
  }

  lemma TrimmedFeedLines(fact: string)
    requires fact == [] || (!IsSpace(fact[0]) && !IsSpace(fact[|fact| - 1]))
    requires '\n' !in fact
    ensures '\n' !in Strip(fact) && '\n' !in Strip("")
    ensures [Prompt.LOCAL_LABEL + Strip(fact), Prompt.WEB_LABEL + Strip("")] == [Prompt.LOCAL_LABEL + fact, Prompt.WEB_LABEL]
  {
    StripTrimmed(fact);
    EmptyWebLine();
  }

  lemma EmptyWebLine()
    ensures Strip("") == "" && Prompt.WEB_LABEL + Strip("") == Prompt.WEB_LABEL
  {
    StripTrimmed("");
    assert Prompt.WEB_LABEL + "" == Prompt.WEB_LABEL;
  }

  /** The prompt built from the fallback fact alone. */
  lemma FallbackPromptLines()
    ensures Split(Prompt.AssemblePrompt(Feed.NO_DATA_FACT, ""), Prompt.NL)
         == Prompt.HEAD_LINES + [Prompt.LOCAL_LABEL + Feed.NO_DATA_FACT, Prompt.WEB_LABEL] + Prompt.TAIL_LINES
  {
    assert '\n' !in Feed.NO_DATA_FACT;
    LocalOnlyPromptLines(Feed.NO_DATA_FACT);
  }

  /**
   With neither the engine nor search available the prompt still has its fourteen
   lines: LOCAL reads "No data found." and WEB is empty, which is what rule 1 keys on.
   */
  lemma EngineAndSearchDown(message: string, env: Env)
    requires env.engine(message).Raised? && env.search.NoSearchTool?
    ensures Split(SystemPrompt(message, env), Prompt.NL)
         == Prompt.HEAD_LINES + [Prompt.LOCAL_LABEL + Feed.NO_DATA_FACT, Prompt.WEB_LABEL] + Prompt.TAIL_LINES
  {
    EngineDownEscalates(message, env);
    FallbackPromptLines();
  }

  /**
   Reading the engine's line in text mode and stripping it stops at the last
   character of a non-blank mood.
   */
  lemma StripEngineLine(fact: string, mood: string)
    requires |fact| > 0 && !IsSpace(fact[0]) && '\r' !in fact
    requires |mood| > 0 && !IsSpace(mood[|mood| - 1]) && '\r' !in mood
    ensures Strip(Newlines(fact + Feed.SEP + mood + "\n")) == fact + Feed.SEP + mood
  {
    var line := fact + Feed.SEP + mood;
    var out := line + ['\n'];
    assert out == fact + Feed.SEP + mood + "\n";
    EngineLineNoCR(line, out);
    assert out[0] == fact[0];
    StripNonSpaceStart(out);
    StripRightSpaceEnd(line, '\n');
    assert line[|line| - 1] == mood[|mood| - 1];
    StripRightUnique(line, |line|);
  }

  lemma EngineLineNoCR(line: string, out: string)
    requires '\r' !in line && out == line + ['\n']
    ensures Newlines(out) == out
  {
    assert '\r' !in out;
    NewlinesNoCR(out);
  }

  /** The engine's `fact | mood` line, stripped and split, gives back the fact and the mood. */
  lemma EngineLineParses(fact: string, mood: string)
    requires |fact| > 0 && !IsSpace(fact[0]) && '|' !in fact && '\r' !in fact
    requires |mood| > 0 && !IsSpace(mood[|mood| - 1]) && '|' !in mood && '\r' !in mood
    ensures Feed.ParseFeed(Strip(Newlines(fact + Feed.SEP + mood + "\n"))) == Feed.LocalFact(fact, mood)
  {
    StripEngineLine(fact, mood);
    Feed.BarFreeField(fact);
    MissingCharNotContained(mood, Feed.SEP, 1);
    Feed.ParseFormatted(fact, mood);
  }

  /**
   A `fact | mood` line from the engine, whatever the exit status, reaches the prompt
   as the LOCAL line verbatim, and the WEB line stays empty unless the fact carries
   the no-data sentinel.
   */
  lemma EngineFeedReachesPrompt(message: string, env: Env, fact: string, mood: string, exitCode: int)
    requires env.engine(message) == Ok(Engine.Run(exitCode, fact + Feed.SEP + mood + "\n"))
    requires |fact| > 0 && !IsSpace(fact[0]) && !IsSpace(fact[|fact| - 1])
    requires '|' !in fact && '\n' !in fact && '\r' !in fact
    requires |mood| > 0 && !IsSpace(mood[|mood| - 1]) && '|' !in mood && '\r' !in mood
    ensures LocalFeed(message, env) == Feed.LocalFact(fact, mood)
    ensures !Contains(fact, Resolver.NO_DATA) ==>
      Split(SystemPrompt(message, env), Prompt.NL)
        == Prompt.HEAD_LINES + [Prompt.LOCAL_LABEL + fact, Prompt.WEB_LABEL] + Prompt.TAIL_LINES
  {
    EngineLineParses(fact, mood);
    if !Contains(fact, Resolver.NO_DATA) {
      assert WebFeed(message, env) == "";
      LocalOnlyPromptLines(fact);
    }
  }

  /** The price example of rule 2: the engine's "₹15,791 | CALM" reaches LOCAL as "₹15,791". */
  lemma PriceFlowsUnchanged(message: string, env: Env)
    requires env.engine(message) == Ok(Engine.Run(0, "₹15,791 | CALM\n"))
    ensures Split(SystemPrompt(message, env), Prompt.NL)
         == Prompt.HEAD_LINES + [Prompt.LOCAL_LABEL + "₹15,791", Prompt.WEB_LABEL] + Prompt.TAIL_LINES
  {
    var fact := "₹15,791";
    var mood := "CALM";
    assert fact + Feed.SEP + mood + "\n" == "₹15,791 | CALM\n";
    assert !Contains(fact, Resolver.NO_DATA);
    EngineFeedReachesPrompt(message, env, fact, mood, 0);
  }
}

=== FILE: effects.dfy ===
/**
 The result of a call into code outside the model (the engine subprocess, the
 web-search client, the language-model client): either a value or an exception.
 */
module Effects {

  datatype Outcome<+T> = Ok(value: T) | Raised
}

=== FILE: engine.dfy ===
/**
 The native fact engine, `backend/engine/search.cpp`: a keyword "vibe" check of
 the query and a first-match scan of the knowledge file, printed as `VIBE|FACT`.
 The knowledge file is given as its sequence of lines (an unreadable file reads
 as no lines); the program's observable behaviour is its exit status and stdout.
 */
module Engine {
  import opened Text

  const POSITIVE := "Positive"
  const NEGATIVE := "Negative"
  const NEUTRAL := "Neutral"

  /** The fact printed when no knowledge line matches. */
  const NO_LOCAL_FACTS := "No local facts found."

  /** `analyzeVibe`: classification of the lower-cased prompt by keyword. */
  function AnalyzeVibe(prompt: string): (vibe: string)
    ensures vibe == POSITIVE || vibe == NEGATIVE || vibe == NEUTRAL
    ensures vibe == POSITIVE <==> Contains(Lower(prompt), "happy") || Contains(Lower(prompt), "great")
    ensures vibe == NEGATIVE <==>
      && !Contains(Lower(prompt), "happy") && !Contains(Lower(prompt), "great")
      && (Contains(Lower(prompt), "sad") || Contains(Lower(prompt), "bad"))
  {
    var p := Lower(prompt);
    if Contains(p, "happy") || Contains(p, "great") then POSITIVE
    else if Contains(p, "sad") || Contains(p, "bad") then NEGATIVE
    else NEUTRAL
  }

  /** `p` and `q` differ at most in the case of ASCII letters. */
  predicate SameIgnoringCase(p: string, q: string) {
    |p| == |q| && forall i :: 0 <= i < |p| ==> ToLowerChar(p[i]) == ToLowerChar(q[i])
  }

  /** The vibe is blind to ASCII letter case. */
  lemma VibeIgnoresCase(p: string, q: string)
    requires SameIgnoringCase(p, q)
    ensures AnalyzeVibe(p) == AnalyzeVibe(q)
  {
    assert Lower(p) == Lower(q);
  }

  /** A positive keyword anywhere wins, whatever negative words surround it. */
  lemma PositiveDominates(before: string, p: string, after: string)
    requires Contains(Lower(p), "happy") || Contains(Lower(p), "great")
    ensures AnalyzeVibe(before + p + after) == POSITIVE
  {
    LowerConcat(before, p);
    LowerConcat(before + p, after);
    ContainsConcat(Lower(before), Lower(p), "happy");
    ContainsConcat(Lower(before), Lower(p), "great");
    ContainsConcat(Lower(before) + Lower(p), Lower(after), "happy");
    ContainsConcat(Lower(before) + Lower(p), Lower(after), "great");
  }

  /** `query.substr(0, 3)`: at most the first three characters. */
  function QueryKey(query: string): (key: string)
    ensures key <= query
    ensures |key| == if |query| < 3 then |query| else 3
  {
    if |query| < 3 then query else query[..3]
  }

  /** Line `i` is the first line containing `key`. */
  predicate FirstMatchAt(lines: seq<string>, key: string, i: nat) {
    && i < |lines|
    && Contains(lines[i], key)
    && forall j :: 0 <= j < i ==> !Contains(lines[j], key)
  }

  /** The fact the engine reports for `key`: the first matching line, else the default. */
  function BestMatch(lines: seq<string>, key: string): (best: string)
    ensures (forall i :: 0 <= i < |lines| ==> !Contains(lines[i], key)) ==> best == NO_LOCAL_FACTS
    ensures forall i: nat :: FirstMatchAt(lines, key, i) ==> best == lines[i]
  {
    if |lines| == 0 then NO_LOCAL_FACTS
    else if Contains(lines[0], key) then lines[0]
    else
      var best := BestMatch(lines[1..], key);
      assert forall i: nat :: FirstMatchAt(lines, key, i) ==> i > 0 && FirstMatchAt(lines[1..], key, i - 1);
      best
  }

  /** The `getline` loop of `main`, stopping at the first line that contains the key. */
  method SearchKnowledge(lines: seq<string>, query: string) returns (best: string)
    ensures best == BestMatch(lines, QueryKey(query))
  {
    var key := QueryKey(query);
    best := NO_LOCAL_FACTS;
    var i := 0;
    while i < |lines|
      invariant 0 <= i <= |lines|
      invariant forall j :: 0 <= j < i ==> !Contains(lines[j], key)
      invariant best == NO_LOCAL_FACTS
    {
      if Contains(lines[i], key) {
        assert FirstMatchAt(lines, key, i);
        best := lines[i];
        break;
      }
      i := i + 1;
    }
  }

  /** What the process leaves behind: its exit status and everything it printed. */
  datatype Run = Run(exitCode: int, stdout: string)

  /** `main(argc, argv)`: `argv[0]` is the program name and `argv[1]` the query. */
  function EngineMain(argv: seq<string>, knowledge: seq<string>): (run: Run)
    ensures run.exitCode == 0 <==> |argv| >= 2
    ensures run.exitCode != 0 ==> run.exitCode == 1 && run.stdout == ""
    ensures run.exitCode == 0 ==> |run.stdout| > 0 && run.stdout[|run.stdout| - 1] == '\n'
  {
    if |argv| < 2 then Run(1, "")
    else
      var query := argv[1];
      Run(0, AnalyzeVibe(query) + "|" + BestMatch(knowledge, QueryKey(query)) + "\n")
  }

  /** Reads the `VIBE|FACT` line back: text before the first bar, then the rest up to the newline. */
  function DecodeOutput(stdout: string): Option<(string, string)>
  {
    match Find(stdout, "|")
    case None => None
    case Some(i) =>
      if i + 1 < |stdout| && stdout[|stdout| - 1] == '\n'
      then Some((stdout[..i], stdout[i + 1..|stdout| - 1]))
      else None
  }

  /** The printed line always decodes to the vibe of the query and the fact found for it. */
  lemma OutputRoundTrip(argv: seq<string>, knowledge: seq<string>)
    requires |argv| >= 2
    ensures DecodeOutput(EngineMain(argv, knowledge).stdout)
         == Some((AnalyzeVibe(argv[1]), BestMatch(knowledge, QueryKey(argv[1]))))
  {
    var vibe := AnalyzeVibe(argv[1]);
    assert '|' !in vibe by {
      assert '|' !in POSITIVE && '|' !in NEGATIVE && '|' !in NEUTRAL;
    }
    DecodeLine(vibe, BestMatch(knowledge, QueryKey(argv[1])));
  }

  /** A bar-free label, a bar, any fact and a newline decode back to the label and the fact. */
  lemma DecodeLine(vibe: string, fact: string)
    requires '|' !in vibe
    ensures DecodeOutput(vibe + "|" + fact + "\n") == Some((vibe, fact))
  {
    var out := vibe + "|" + fact + "\n";
    SingleCharField(vibe, '|');
    FindExtends(vibe + "|", fact, "|");
    FindExtends(vibe + "|" + fact, "\n", "|");
    assert out[..|vibe|] == vibe;
    assert out[|vibe| + 1..|out| - 1] == fact;
  }
}

=== FILE: feed.dfy ===
/**
 The backend's view of the fact engine (`get_cpp_intelligence` and the split in
 `chat`, backend/main.py): the raw feed is the engine's stdout read in text mode
 and stripped, or a fixed fallback string when the subprocess call raised; it is
 then split on " | " into a fact and a mood.
 */
module Feed {
  import opened Text
  import opened Effects
  import Engine

  /** The delimiter the backend splits the feed on. */
  const SEP := " | "

  const NO_DATA_FACT := "No data found."
  const NEUTRAL_MOOD := "NEUTRAL"
  const FALLBACK_MOOD := "User mood is NEUTRAL."

  /** What `get_cpp_intelligence` returns when running the engine raised: "No data found. | User mood is NEUTRAL." */
  const FALLBACK_RAW := NO_DATA_FACT + SEP + FALLBACK_MOOD

  datatype LocalFact = LocalFact(fact: string, mood: string)

  /**
   `get_cpp_intelligence`: the stdout of a run that finished, whatever its exit
   status, read in text mode (CR and CR LF become LF) and stripped; or the
   fallback when spawning, the 5-second timeout or decoding raised.
   */
  function LocalIntelligence(outcome: Outcome<Engine.Run>): (raw: string)
    ensures outcome.Raised? ==> raw == FALLBACK_RAW
    ensures outcome.Ok? ==> raw == Strip(Newlines(outcome.value.stdout))
    ensures outcome.Ok? ==> raw == [] || (!IsSpace(raw[0]) && !IsSpace(raw[|raw| - 1]))
    ensures outcome.Ok? ==> forall k :: 0 <= k < |raw| ==> raw[k] != '\r'
  {
    match outcome
    case Ok(run) =>
      NewlinesDropsCR(run.stdout);
      StripAbsent(Newlines(run.stdout), '\r');
      Strip(Newlines(run.stdout))
    case Raised => FALLBACK_RAW
  }

  /** `parts = raw.split(" | ")`, then the first part as fact and the second, if any, as mood. */
  function ParseFeed(raw: string): (lf: LocalFact)
    ensures lf.fact <= raw && !Contains(lf.fact, SEP)
    ensures lf.fact == raw <==> !Contains(raw, SEP)
    ensures !Contains(raw, SEP) ==> lf.mood == NEUTRAL_MOOD
    ensures Contains(raw, SEP) ==>
      && OccursAt(raw, SEP, |lf.fact|)
      && lf.mood <= raw[|lf.fact| + |SEP|..]
      && !Contains(lf.mood, SEP)
    ensures forall k: nat :: k < |lf.fact| ==> !OccursAt(raw, SEP, k)
    ensures Contains(raw, SEP) ==>
      var rest := raw[|lf.fact| + |SEP|..];
      && (forall k: nat :: k < |lf.mood| ==> !OccursAt(rest, SEP, k))
      && (lf.mood == rest || OccursAt(rest, SEP, |lf.mood|))
  {
    var parts := Split(raw, SEP);
    var fact := if |parts| > 0 then parts[0] else NO_DATA_FACT;
    var mood := if |parts| > 1 then parts[1] else NEUTRAL_MOOD;
    SplitPiecesFree(raw, SEP);
    SplitHead(raw, SEP);
    LocalFact(fact, mood)
  }

  /** A segment without a bar character is always cut cleanly by " | ". */
  lemma BarFreeField(a: string)
    requires '|' !in a
    ensures Field(a, SEP)
  {
    var s := a + SEP;
    assert s[|a|..|a| + |SEP|] == SEP;
    assert OccursAt(s, SEP, |a|);
    forall k: nat | k < |a|
      ensures !OccursAt(s, SEP, k)
    {
      if OccursAt(s, SEP, k) {
        OccursAtChar(s, SEP, k, 1);
      }
    }
  }

  /** Round trip: a feed formatted as `fact | mood` parses back to that fact and mood. */
  lemma ParseFormatted(fact: string, mood: string)
    requires Field(fact, SEP) && !Contains(mood, SEP)
    ensures ParseFeed(fact + SEP + mood) == LocalFact(fact, mood)
  {
    SplitField(fact, SEP, mood);
  }

  /** Segments after the second are ignored. */
  lemma ParseIgnoresExtraSegments(fact: string, mood: string, rest: string)
    requires Field(fact, SEP) && Field(mood, SEP)
    ensures ParseFeed(fact + SEP + mood + SEP + rest) == LocalFact(fact, mood)
  {
    assert fact + SEP + mood + SEP + rest == fact + SEP + (mood + SEP + rest);
    SplitField(fact, SEP, mood + SEP + rest);
    SplitField(mood, SEP, rest);
  }

  /** When the engine call raises, the feed reads as "no data" with a neutral mood. */
  lemma FallbackFeed()
    ensures ParseFeed(LocalIntelligence(Raised)) == LocalFact(NO_DATA_FACT, FALLBACK_MOOD)
  {
    assert forall i :: 0 <= i < |NO_DATA_FACT| ==> NO_DATA_FACT[i] != '|';
    assert forall i :: 0 <= i < |FALLBACK_MOOD| ==> FALLBACK_MOOD[i] != '|';
    BarFreeField(NO_DATA_FACT);
    MissingCharNotContained(FALLBACK_MOOD, SEP, 1);
    ParseFormatted(NO_DATA_FACT, FALLBACK_MOOD);
  }

  /** An empty feed gives an empty fact, not the "No data found." default. */
  lemma EmptyFeed()
    ensures ParseFeed("") == LocalFact("", NEUTRAL_MOOD)
  {
    assert Find("", SEP).None?;
  }

  /** The mood is taken as split, spaces included: only the prompt strips, and only the fact. */
  lemma MoodKeepsSpaces()
    ensures ParseFeed("a" + SEP + " b") == LocalFact("a", " b")
  {
    BarFreeField("a");
    MissingCharNotContained(" b", SEP, 1);
    ParseFormatted("a", " b");
  }
}

=== FILE: integration.dfy ===
/**
 The fact engine's actual output as the backend reads it. The engine prints
 `VIBE|FACT` with a bare bar while the backend splits on " | " (bar with spaces), so
 the whole line, vibe included, becomes the local fact and the mood falls back to
 "NEUTRAL" unless the matched knowledge line itself contains " | ".
 */
module Integration {
  import opened Text
  import opened Effects
  import Engine
  import Feed
  import Resolver

  /** Labels are short and have neither spaces, bars nor carriage returns. */
  lemma VibeShape(query: string)
    ensures var vibe := Engine.AnalyzeVibe(query);
      && 0 < |vibe| <= 8 && !IsSpace(vibe[0])
      && ' ' !in vibe && '|' !in vibe && '\r' !in vibe
  {
  }

  /**
   The newline that ends a line is stripped off after translation, and so is a CR
   just before it, which the translation merges with it into one LF.
   */
  lemma NewlinesLineEnd(line: string)
    ensures StripRight(Newlines(line + "\n")) == StripRight(Newlines(line))
  {
    var lf := ['\n'];
    assert line + "\n" == line + lf;
    if |line| > 0 && line[|line| - 1] == '\r' {
      NewlinesConcatCR(line, lf);
      assert lf[1..] == [] && Newlines([]) == [];
      assert Newlines(line) + [] == Newlines(line);
    } else {
      NewlinesConcat(line, lf);
      NewlinesNoCR(lf);
      StripRightSpaceEnd(Newlines(line), '\n');
    }
  }

  /**
   What `get_cpp_intelligence` returns for a finished engine run: the vibe, the bar,
   and the matched line with its line breaks translated and its trailing whitespace
   removed.
   */
  lemma EngineRawFeed(program: string, query: string, knowledge: seq<string>)
    ensures var best := Engine.BestMatch(knowledge, Engine.QueryKey(query));
      Feed.LocalIntelligence(Ok(Engine.EngineMain([program, query], knowledge)))
        == Engine.AnalyzeVibe(query) + "|" + StripRight(Newlines(best))
  {
    VibeShape(query);
    StripBarredLine(Engine.AnalyzeVibe(query), Engine.BestMatch(knowledge, Engine.QueryKey(query)));
  }

  /**
   Reading a `tag|line` output line in text mode and stripping it keeps the tag and
   the bar, and trims only the translated line's end.
   */
  lemma StripBarredLine(tag: string, line: string)
    requires |tag| > 0 && !IsSpace(tag[0]) && '\r' !in tag
    ensures Strip(Newlines(tag + "|" + line + "\n")) == tag + "|" + StripRight(Newlines(line))
  {
    var head := tag + "|";
    var rest := Newlines(line + "\n");
    assert tag + "|" + line + "\n" == head + (line + "\n");
    assert '\r' !in head;
    NewlinesConcat(head, line + "\n");
    NewlinesNoCR(head);
    assert (head + rest)[0] == tag[0];
    StripNonSpaceStart(head + rest);
    StripRightConcat(head, rest);
    NewlinesLineEnd(line);
  }

  /**
   The backend sees the whole engine line as the local fact, with the default mood,
   exactly when the matched line has no " | " of its own.
   */
  lemma EngineFeedIsWholeFact(program: string, query: string, knowledge: seq<string>)
    ensures var raw := Feed.LocalIntelligence(Ok(Engine.EngineMain([program, query], knowledge)));
      var best := Engine.BestMatch(knowledge, Engine.QueryKey(query));
      && (Feed.ParseFeed(raw).fact == raw <==> !Contains(StripRight(Newlines(best)), Feed.SEP))
      && (!Contains(StripRight(Newlines(best)), Feed.SEP) ==> Feed.ParseFeed(raw) == Feed.LocalFact(raw, Feed.NEUTRAL_MOOD))
  {
    EngineRawFeed(program, query, knowledge);
    VibeShape(query);
    ParseBarredLine(Engine.AnalyzeVibe(query), StripRight(Newlines(Engine.BestMatch(knowledge, Engine.QueryKey(query)))));
  }

  /**
   A `tag|line` feed with a space-free tag is one fact with the default mood exactly
   when the line has no delimiter of its own.
   */
  lemma ParseBarredLine(tag: string, line: string)
    requires ' ' !in tag
    ensures Feed.ParseFeed(tag + "|" + line).fact == tag + "|" + line <==> !Contains(line, Feed.SEP)
    ensures !Contains(line, Feed.SEP) ==> Feed.ParseFeed(tag + "|" + line) == Feed.LocalFact(tag + "|" + line, Feed.NEUTRAL_MOOD)
  {
    assert ' ' !in tag + "|";
    ContainsAfterPrefix(tag + "|", line, Feed.SEP);
  }

  /**
   Web search runs for an engine answer exactly when the matched line (not the vibe,
   which is too short) carries "No data found" and a search client exists.
   */
  lemma EngineEscalation(program: string, query: string, knowledge: seq<string>, tool: Resolver.SearchTool)
    ensures var raw := Feed.LocalIntelligence(Ok(Engine.EngineMain([program, query], knowledge)));
      var best := Engine.BestMatch(knowledge, Engine.QueryKey(query));
      var escalates := Resolver.ShouldEscalate(Feed.ParseFeed(raw).fact, tool);
      !Contains(StripRight(Newlines(best)), Feed.SEP) ==>
        (escalates <==> Contains(StripRight(Newlines(best)), Resolver.NO_DATA) && tool.SearchTool?)
  {
    var best := Engine.BestMatch(knowledge, Engine.QueryKey(query));
    EngineFeedIsWholeFact(program, query, knowledge);
    EngineRawFeed(program, query, knowledge);
    VibeShape(query);
    BarredLineEscalation(Engine.AnalyzeVibe(query), StripRight(Newlines(best)), tool);
  }

  /** The sentinel does not fit in a short label, nor straddle the bar after it. */
  lemma BarredLineEscalation(tag: string, line: string, tool: Resolver.SearchTool)
    requires |tag| < |Resolver.NO_DATA|
    ensures Resolver.ShouldEscalate(tag + "|" + line, tool) <==> Contains(line, Resolver.NO_DATA) && tool.SearchTool?
  {
    assert tag + "|" + line == tag + ['|'] + line;
    ContainsAroundChar(tag, '|', line, Resolver.NO_DATA);
  }

  /** The engine's own "no match" fact does not carry the backend's no-data sentinel. */
  lemma NoLocalFactsIsNotNoData()
    ensures !Contains(Engine.NO_LOCAL_FACTS, Resolver.NO_DATA)
  {
    var s := Engine.NO_LOCAL_FACTS;
    var t := Resolver.NO_DATA;
    forall k: nat | k + |t| <= |s|
      ensures !OccursAt(s, t, k)
    {
      if OccursAt(s, t, k) {
        OccursAtChar(s, t, k, 0);
        OccursAtChar(s, t, k, 3);
      }
    }
  }

  /** A line without carriage returns that ends in a non-space reads back unchanged. */
  lemma PlainLine(s: string)
    requires '\r' !in s && |s| > 0 && !IsSpace(s[|s| - 1])
    ensures StripRight(Newlines(s)) == s
  {
    NewlinesNoCR(s);
    StripRightUnique(s, |s|);
  }

  /** The default fact has no line break, no trailing whitespace and no " | ". */
  lemma NoLocalFactsShape()
    ensures StripRight(Newlines(Engine.NO_LOCAL_FACTS)) == Engine.NO_LOCAL_FACTS
    ensures !Contains(Engine.NO_LOCAL_FACTS, Feed.SEP)
    ensures !Contains(Engine.NO_LOCAL_FACTS, Resolver.NO_DATA)
  {
    assert '|' !in Engine.NO_LOCAL_FACTS && '\r' !in Engine.NO_LOCAL_FACTS;
    PlainLine(Engine.NO_LOCAL_FACTS);
    MissingCharNotContained(Engine.NO_LOCAL_FACTS, Feed.SEP, 1);
    NoLocalFactsIsNotNoData();
  }

  /**
   A query that matches no knowledge line never escalates to web search: the
   engine's default fact is not the sentinel the backend looks for.
   */
  lemma EngineMissNeverEscalates(program: string, query: string, knowledge: seq<string>, tool: Resolver.SearchTool)
    requires forall i :: 0 <= i < |knowledge| ==> !Contains(knowledge[i], Engine.QueryKey(query))
    ensures !Resolver.ShouldEscalate(
      Feed.ParseFeed(Feed.LocalIntelligence(Ok(Engine.EngineMain([program, query], knowledge)))).fact, tool)
  {
    assert Engine.BestMatch(knowledge, Engine.QueryKey(query)) == Engine.NO_LOCAL_FACTS;
    NoLocalFactsShape();
    EngineEscalation(program, query, knowledge, tool);
  }

  /**
   A run without the query argument exits with status 1 and prints nothing; the
   backend does not check the status and reads an empty fact, which never escalates.
   The backend itself always passes the program path and the query, so it never
   meets this exit; a crash is the non-zero exit it can meet, and that is part of
   what the opaque engine parameter of `Chat.Env` may return.
   */
  lemma EngineUsageErrorReadsEmpty(program: string, knowledge: seq<string>, tool: Resolver.SearchTool)
    ensures var run := Engine.EngineMain([program], knowledge);
      var lf := Feed.ParseFeed(Feed.LocalIntelligence(Ok(run)));
      && run.exitCode == 1
      && lf == Feed.LocalFact("", Feed.NEUTRAL_MOOD)
      && !Resolver.ShouldEscalate(lf.fact, tool)
  {
    StripTrimmed("");
    Feed.EmptyFeed();
  }
}

=== FILE: prompt.dfy ===
/**
 The system prompt built in `chat` (backend/main.py): a role and pinned-date
 preamble, the data feed with the stripped local fact and web data, and four
 mandatory rules. The prompt is the newline-join of its lines, exactly as the
 triple-quoted template lays them out (four-space indentation, trailing spaces
 included).
 */
module Prompt {
  import opened Text

  const NL := "\n"
  const INDENT := "    "

  // Long literals are written in short pieces, which the verifier can scan character by character.
  const ROLE_LINE := "    ROLE: You are Jaffer, " + "a live-data agent. "
  const DATE_LINE := "    DATE: Tuesday, " + "February 10, 2026."
  const FEED_LINE := "    DATA_FEED:"
  const LOCAL_LABEL := "    - LOCAL: "
  const WEB_LABEL := "    - WEB: "
  const RULES_LINE := "    MANDATORY RULES:"

  const RULE_1 := "1. If the WEB feed is empty, " + "say \"I'm currently unable " + "to fetch live numbers.\" "
  const RULE_2 := "2. NEVER invent a price " + "(like 51,500). If the data " + "says ₹15,791, use that."
  const RULE_3 := "3. You are prohibited from " + "saying \"I don't have " + "real-time access.\" "
  const RULE_4 := "4. Be savvy and concise."

  /** The lines before the data feed; the template opens with a newline. */
  const HEAD_LINES: seq<string> := ["", ROLE_LINE, DATE_LINE, INDENT, FEED_LINE]

  /** The lines after the data feed: the rules block, ending on the closing indentation. */
  const TAIL_LINES: seq<string> :=
    [INDENT, RULES_LINE, INDENT + RULE_1, INDENT + RULE_2, INDENT + RULE_3, INDENT + RULE_4, INDENT]

  /**
   The `system_prompt` f-string for a local fact and web data. Read line by line it
   is the fixed preamble, the LOCAL and WEB feed lines (each broken further only at
   line breaks inside the stripped data), then the fixed rules block, for every fact
   and web data.
   */
  function AssemblePrompt(fact: string, web: string): (prompt: string)
    ensures Split(prompt, NL)
         == HEAD_LINES + Split(LOCAL_LABEL + Strip(fact), NL) + Split(WEB_LABEL + Strip(web), NL) + TAIL_LINES
  {
    HeadLinesSingle();
    TailLinesSingle();
    SplitJoinAround(HEAD_LINES, LOCAL_LABEL + Strip(fact), WEB_LABEL + Strip(web), TAIL_LINES, '\n');
    Join(HEAD_LINES + [LOCAL_LABEL + Strip(fact), WEB_LABEL + Strip(web)] + TAIL_LINES, NL)
  }

  /** None of the fixed lines contains a line break. */
  lemma HeadLinesSingle()
    ensures forall k :: 0 <= k < |HEAD_LINES| ==> '\n' !in HEAD_LINES[k]
  {
    assert '\n' !in ROLE_LINE;
    assert '\n' !in DATE_LINE;
    assert '\n' !in FEED_LINE;
  }

  lemma TailLinesSingle()
    ensures forall k :: 0 <= k < |TAIL_LINES| ==> '\n' !in TAIL_LINES[k]
  {
    Rule1Single();
    Rule2Single();
    Rule3Single();
    assert '\n' !in INDENT + RULE_4;
    assert '\n' !in RULES_LINE;
  }

  lemma Rule1Single() ensures '\n' !in INDENT + RULE_1 {}
  lemma Rule2Single() ensures '\n' !in INDENT + RULE_2 {}
  lemma Rule3Single() ensures '\n' !in INDENT + RULE_3 {}

  /** The four rules are always the prompt's last lines but one, verbatim and in order. */
  lemma RulesAlwaysPresent(fact: string, web: string)
    ensures var lines := Split(AssemblePrompt(fact, web), NL);
      && |lines| >= 14
      && lines[|lines| - 5..|lines| - 1] == [INDENT + RULE_1, INDENT + RULE_2, INDENT + RULE_3, INDENT + RULE_4]
      && lines[|lines| - 1] == INDENT
  {
    var lines := Split(AssemblePrompt(fact, web), NL);
    var local, webLines := Split(LOCAL_LABEL + Strip(fact), NL), Split(WEB_LABEL + Strip(web), NL);
    var front := HEAD_LINES + local + webLines;
    assert lines == front + TAIL_LINES;
    assert |front| >= 7 by {
      assert |HEAD_LINES| == 5 && |local| >= 1 && |webLines| >= 1;
    }
    RulesAfter(lines, front);
  }

  /** Whatever comes before the rules block, the four rules are the last lines but one. */
  lemma RulesAfter(lines: seq<string>, front: seq<string>)
    requires lines == front + TAIL_LINES && |front| >= 7
    ensures |lines| >= 14
    ensures lines[|lines| - 5..|lines| - 1] == [INDENT + RULE_1, INDENT + RULE_2, INDENT + RULE_3, INDENT + RULE_4]
    ensures lines[|lines| - 1] == INDENT
  {
    assert lines[|lines| - 7..] == TAIL_LINES;
    assert lines[|lines| - 5..|lines| - 1] == TAIL_LINES[2..6];
  }

  /**
   With single-line data the prompt is exactly fourteen lines, and the LOCAL and WEB
   lines carry the stripped fact and web data unaltered.
   */
  lemma PromptFeedLines(fact: string, web: string)
    requires '\n' !in Strip(fact) && '\n' !in Strip(web)
    ensures Split(AssemblePrompt(fact, web), NL)
         == HEAD_LINES + [LOCAL_LABEL + Strip(fact), WEB_LABEL + Strip(web)] + TAIL_LINES
  {
    LabelsSingle();
    LabelledLineSingle(LOCAL_LABEL, Strip(fact));
    LabelledLineSingle(WEB_LABEL, Strip(web));
    PairConcat(HEAD_LINES, LOCAL_LABEL + Strip(fact), WEB_LABEL + Strip(web), TAIL_LINES);
  }

  lemma LabelsSingle()
    ensures '\n' !in LOCAL_LABEL && '\n' !in WEB_LABEL
  {
  }

  /** A feed line whose label and data have no line break is one line. */
  lemma LabelledLineSingle(head: string, data: string)
    requires '\n' !in head && '\n' !in data
    ensures Split(head + data, NL) == [head + data]
  {
    MissingCharNotContained(head + data, NL, 0);
  }

  lemma PairConcat<T>(front: seq<T>, x: T, y: T, tail: seq<T>)
    ensures front + [x] + [y] + tail == front + [x, y] + tail
  {
  }
}

=== FILE: resolver.dfy ===
/**
 The web-search escalation in `chat` (backend/main.py): search runs only when the
 local fact reports "No data found" and a search client was constructed at start
 up; a search that raises leaves the web data empty.
 */
module Resolver {
  import opened Text
  import opened Effects
  import Feed

  /** The sentinel looked for in the local fact. */
  const NO_DATA := "No data found"

  /** The pinned date appended to every search query. */
  const SEARCH_SUFFIX := " today February 10 2026"

  /** The search client, absent when it could not be imported or constructed. */
  datatype SearchTool = NoSearchTool | SearchTool(run: string -> Outcome<string>)

  /**
   `"No data found" in local_fact and search_tool`: the sentinel occurs somewhere in
   the fact and a search client exists.
   */
  function ShouldEscalate(fact: string, tool: SearchTool): (escalate: bool)
    ensures escalate <==> tool.SearchTool? && exists k: nat :: OccursAt(fact, NO_DATA, k)
    ensures escalate ==> |fact| >= |NO_DATA|
  {
    Contains(fact, NO_DATA) && tool.SearchTool?
  }

  /** The query sent to the search client: the user's message, then the pinned date. */
  function SearchQuery(message: string): (query: string)
    ensures |query| == |message| + |SEARCH_SUFFIX|
    ensures query[..|message|] == message && query[|message|..] == SEARCH_SUFFIX
  {
    message + SEARCH_SUFFIX
  }

  /** Different messages never share a search query: the message is recovered from it. */
  lemma SearchQueryInjective(a: string, b: string)
    ensures SearchQuery(a) == SearchQuery(b) <==> a == b
  {
    if SearchQuery(a) == SearchQuery(b) {
      assert a == SearchQuery(a)[..|a|];
      assert b == SearchQuery(b)[..|b|];
    }
  }

  /** `live_web_data`: the search result when escalating and the search returned, else empty. */
  function WebData(message: string, fact: string, tool: SearchTool): (web: string)
    ensures web != "" ==> ShouldEscalate(fact, tool) && tool.run(SearchQuery(message)) == Ok(web)
    ensures ShouldEscalate(fact, tool) && tool.run(SearchQuery(message)).Ok? ==>
      web == tool.run(SearchQuery(message)).value
  {
    if ShouldEscalate(fact, tool) then
      match tool.run(SearchQuery(message))
      case Ok(text) => text
      case Raised => ""
    else ""
  }

  /** The fallback fact carries the sentinel: a failed engine call escalates whenever search exists. */
  lemma FallbackEscalates(tool: SearchTool)
    ensures ShouldEscalate(Feed.NO_DATA_FACT, tool) <==> tool.SearchTool?
  {
    assert Feed.NO_DATA_FACT[0..|NO_DATA|] == NO_DATA;
    assert OccursAt(Feed.NO_DATA_FACT, NO_DATA, 0);
  }
}

=== FILE: store.dfy ===
/**
 The two tables of `memory.db` (backend/main.py) as values: `profile` as a map from
 key to value, and `history` as its rows in id order. Ids come from AUTOINCREMENT
 and only grow, so id order is insertion order and `ORDER BY id DESC` is newest
 first.
 */
module Store {

  datatype Role = User | Bot

  /** One row of `history`. */
  datatype Turn = Turn(role: Role, content: string)

  datatype Db = Db(profile: map<string, string>, history: seq<Turn>)

  /** The rows `init_db` inserts into `profile`, in order. */
  const SEEDS: seq<(string, string)> := [
    ("name", "Yash"),
    ("role", "Lead Developer @ Jaffer Agentic"),
    ("tech", "C++, React, FastAPI, Ollama")
  ]

  /** `INSERT OR IGNORE` on the primary key `key`. */
  function InsertOrIgnore(profile: map<string, string>, key: string, value: string): map<string, string>
  {
    if key in profile then profile else profile[key := value]
  }

  function SeedKeys(seeds: seq<(string, string)>): set<string>
  {
    set i | 0 <= i < |seeds| :: seeds[i].0
  }

  /** No earlier seed row has the same key as row `i`. */
  predicate FirstWithKey(seeds: seq<(string, string)>, i: int)
    requires 0 <= i < |seeds|
  {
    forall j :: 0 <= j < i ==> seeds[j].0 != seeds[i].0
  }

  /** The seed inserts run one after another. */
  function SeedWith(profile: map<string, string>, seeds: seq<(string, string)>): (r: map<string, string>)
    ensures r.Keys == profile.Keys + SeedKeys(seeds)
    ensures forall k :: k in profile ==> r[k] == profile[k]
    ensures forall i :: 0 <= i < |seeds| && seeds[i].0 !in profile && FirstWithKey(seeds, i) ==>
      r[seeds[i].0] == seeds[i].1
    decreases |seeds|
  {
    if |seeds| == 0 then profile
    else
      var next := InsertOrIgnore(profile, seeds[0].0, seeds[0].1);
      var r := SeedWith(next, seeds[1..]);
      assert SeedKeys(seeds) == {seeds[0].0} + SeedKeys(seeds[1..]) by {
        forall key | key in SeedKeys(seeds)
          ensures key in {seeds[0].0} + SeedKeys(seeds[1..])
        {
          var i :| 0 <= i < |seeds| && seeds[i].0 == key;
          if i > 0 {
            assert seeds[1..][i - 1].0 == key;
          }
        }
      }
      assert forall i :: 1 <= i < |seeds| && FirstWithKey(seeds, i) ==> FirstWithKey(seeds[1..], i - 1);
      r
  }

  /** `init_db`: create-if-not-exists leaves existing rows alone; the seeds fill only missing keys. */
  function InitDb(db: Db): (r: Db)
    ensures r.history == db.history
    ensures r.profile.Keys == db.profile.Keys + {"name", "role", "tech"}
    ensures forall k :: k in db.profile ==> r.profile[k] == db.profile[k]
    ensures forall i :: 0 <= i < |SEEDS| && SEEDS[i].0 !in db.profile ==> r.profile[SEEDS[i].0] == SEEDS[i].1
  {
    assert SeedKeys(SEEDS) == {"name", "role", "tech"} by {
      assert SEEDS[0].0 == "name" && SEEDS[1].0 == "role" && SEEDS[2].0 == "tech";
    }
    assert forall i :: 0 <= i < |SEEDS| ==> FirstWithKey(SEEDS, i);
    Db(SeedWith(db.profile, SEEDS), db.history)
  }

  /** Running `init_db` again at the next start up changes nothing. */
  lemma InitDbIdempotent(db: Db)
    ensures InitDb(InitDb(db)) == InitDb(db)
  {
    var once := InitDb(db);
    var twice := InitDb(once);
    assert twice.profile == once.profile;
  }

  /** The persona lookup: the profile's `name`, or "User" when there is none. */
  function PersonaName(profile: map<string, string>): (name: string)
    ensures "name" in profile ==> name == profile["name"]
    ensures "name" !in profile ==> name == "User"
  {
    if "name" in profile then profile["name"] else "User"
  }

  /** Only the `name` row decides the persona: writing any other key leaves it as it was. */
  lemma PersonaIgnoresOtherKeys(profile: map<string, string>, key: string, value: string)
    requires key != "name"
    ensures PersonaName(profile[key := value]) == PersonaName(profile)
  {
  }

  /** After start up the lookup always finds a name: the stored one, or the seeded "Yash". */
  lemma PersonaAfterInit(db: Db)
    ensures PersonaName(InitDb(db).profile) == if "name" in db.profile then db.profile["name"] else "Yash"
  {
    assert SEEDS[0] == ("name", "Yash");
  }

  const PREVIEW_COUNT := 10
  const PREVIEW_CHARS := 25
  const ELLIPSIS := "..."

  /** Contents of the user rows, oldest first: the rows `WHERE role='user'` selects, in id order. */
  function UserContents(history: seq<Turn>): (r: seq<string>)
    ensures |r| <= |history|
  {
    if |history| == 0 then []
    else (if history[0].role == User then [history[0].content] else []) + UserContents(history[1..])
  }

  /** Contents of the user rows, newest first: the oldest-first listing reversed. */
  function NewestUserContents(history: seq<Turn>): (r: seq<string>)
    ensures |r| == |UserContents(history)| <= |history|
    ensures forall k :: 0 <= k < |r| ==> r[k] == UserContents(history)[|r| - 1 - k]
    ensures forall k :: 0 <= k < |r| ==> Turn(User, r[k]) in history
  {
    if |history| == 0 then []
    else
      var rest := NewestUserContents(history[1..]);
      var x := if history[0].role == User then [history[0].content] else [];
      assert UserContents(history) == x + UserContents(history[1..]);
      ReverseSnoc(UserContents(history[1..]), rest, x);
      rest + x
  }

  /** Putting at most one entry after a reversed list reverses that entry put in front. */
  lemma ReverseSnoc<T>(tail: seq<T>, rest: seq<T>, x: seq<T>)
    requires |x| <= 1 && |rest| == |tail|
    requires forall k :: 0 <= k < |rest| ==> rest[k] == tail[|rest| - 1 - k]
    ensures forall k :: 0 <= k < |rest + x| ==> (rest + x)[k] == (x + tail)[|rest + x| - 1 - k]
  {
    var r, all := rest + x, x + tail;
    forall k | 0 <= k < |r|
      ensures r[k] == all[|r| - 1 - k]
    {
      if k < |rest| {
        assert r[k] == tail[|rest| - 1 - k];
        assert all[|r| - 1 - k] == tail[|rest| - 1 - k];
      }
    }
  }

  /** Appending a row puts it in front of the newest-first listing exactly when it is a user row. */
  lemma {:induction false} NewestAfterAppend(history: seq<Turn>, t: Turn)
    ensures NewestUserContents(history + [t])
         == (if t.role == User then [t.content] else []) + NewestUserContents(history)
    decreases |history|
  {
    if |history| > 0 {
      assert (history + [t])[1..] == history[1..] + [t];
      NewestAfterAppend(history[1..], t);
    } else {
      assert (history + [t])[1..] == [];
    }
  }

  /** `content[:25] + "..."`. */
  function Truncate(content: string): (p: string)
    ensures |ELLIPSIS| <= |p| <= PREVIEW_CHARS + |ELLIPSIS|
    ensures p[|p| - |ELLIPSIS|..] == ELLIPSIS
    ensures p[..|p| - |ELLIPSIS|] <= content
    ensures |content| <= PREVIEW_CHARS ==> p == content + ELLIPSIS
    ensures |content| > PREVIEW_CHARS ==> |p| == PREVIEW_CHARS + |ELLIPSIS|
  {
    (if |content| <= PREVIEW_CHARS then content else content[..PREVIEW_CHARS]) + ELLIPSIS
  }

  /** Each entry cut to its preview, in the same order. */
  function TruncateAll(contents: seq<string>): (r: seq<string>)
    ensures |r| == |contents|
    ensures forall k :: 0 <= k < |r| ==> r[k] == Truncate(contents[k])
  {
    if |contents| == 0 then [] else [Truncate(contents[0])] + TruncateAll(contents[1..])
  }

  /** GET /history: the ten newest user rows, each cut to a preview. */
  function HistoryPreview(history: seq<Turn>): (preview: seq<string>)
    ensures |preview| <= PREVIEW_COUNT
    ensures var newest := NewestUserContents(history);
      && |preview| == (if |newest| < PREVIEW_COUNT then |newest| else PREVIEW_COUNT)
      && forall k :: 0 <= k < |preview| ==> preview[k] == Truncate(newest[k])
  {
    var newest := NewestUserContents(history);
    var n := if |newest| < PREVIEW_COUNT then |newest| else PREVIEW_COUNT;
    assert forall k :: 0 <= k < n ==> newest[..n][k] == newest[k];
    TruncateAll(newest[..n])
  }

  /** A user row followed by a bot row adds exactly the user's message to the front of the listing. */
  lemma NewestAfterExchange(history: seq<Turn>, message: string, reply: string)
    ensures NewestUserContents(history + [Turn(User, message), Turn(Bot, reply)])
         == [message] + NewestUserContents(history)
  {
    var after := history + [Turn(User, message), Turn(Bot, reply)];
    assert after == (history + [Turn(User, message)]) + [Turn(Bot, reply)];
    NewestAfterAppend(history + [Turn(User, message)], Turn(Bot, reply));
    NewestAfterAppend(history, Turn(User, message));
  }

  /** Cutting the listing to ten after one new entry at the front. */
  lemma PreviewAfterPush(newest: seq<string>, message: string)
    ensures var n := if |newest| < PREVIEW_COUNT then |newest| else PREVIEW_COUNT;
      var before := TruncateAll(newest[..n]);
      var pushed := [message] + newest;
      var m := if |pushed| < PREVIEW_COUNT then |pushed| else PREVIEW_COUNT;
      TruncateAll(pushed[..m]) == [Truncate(message)] + before[..if n < PREVIEW_COUNT then n else PREVIEW_COUNT - 1]
  {
    var n := if |newest| < PREVIEW_COUNT then |newest| else PREVIEW_COUNT;
    var before := TruncateAll(newest[..n]);
    var pushed := [message] + newest;
    var m := if |pushed| < PREVIEW_COUNT then |pushed| else PREVIEW_COUNT;
    var post := TruncateAll(pushed[..m]);
    var expected := [Truncate(message)] + before[..if n < PREVIEW_COUNT then n else PREVIEW_COUNT - 1];
    assert |post| == |expected|;
    forall k | 0 <= k < |post|
      ensures post[k] == expected[k]
    {
      if k > 0 {
        assert post[k] == Truncate(newest[k - 1]);
        assert expected[k] == before[k - 1];
      }
    }
  }

  /** A successful exchange shows up first in the next preview, pushing the oldest entry out at ten. */
  lemma PreviewAfterExchange(history: seq<Turn>, message: string, reply: string)
    ensures var before := HistoryPreview(history);
      HistoryPreview(history + [Turn(User, message), Turn(Bot, reply)])
        == [Truncate(message)] + before[..if |before| < PREVIEW_COUNT then |before| else PREVIEW_COUNT - 1]
  {
    NewestAfterExchange(history, message, reply);
    PreviewAfterPush(NewestUserContents(history), message);
  }

  /** POST /clear: `DELETE FROM history`; the profile is untouched. */
  function Clear(db: Db): (r: Db)
    ensures r.profile == db.profile
    ensures r.history == []
    ensures HistoryPreview(r.history) == []
  {
    Db(db.profile, [])
  }
}

=== FILE: text.dfy ===
/**
 String primitives shared by the chat backend (Python `str`) and the native fact
 engine (C++ `std::string`):
 - substring search, as Python's `t in s` and C++'s `s.find(t) != npos` perform it;
 - Python's `str.split(sep)` and `sep.join(parts)` for a non-empty separator;
 - Python's `str.strip()` with the whitespace set of `str.isspace`;
 - the CR and CR LF to LF translation of a text-mode `subprocess` pipe;
 - the "C" locale's `tolower`, which only changes ASCII capitals.
 Strings are sequences of Unicode code points.
 */
module Text {

  datatype Option<+T> = None | Some(value: T)

  /** `t` occurs in `s` starting at index `i`. */
  predicate OccursAt(s: string, t: string, i: nat) {
    i + |t| <= |s| && s[i..i + |t|] == t
  }

  lemma OccursAtChar(s: string, t: string, i: nat, j: nat)
    requires OccursAt(s, t, i) && j < |t|
    ensures s[i + j] == t[j]
  {
    assert s[i..i + |t|][j] == s[i + j];
  }

  /** Leftmost occurrence of `t` in `s` at or after index `from`. */
  function FindFrom(s: string, t: string, from: nat): (r: Option<nat>)
    ensures r.Some? ==> from <= r.value && OccursAt(s, t, r.value)
    ensures r.Some? ==> forall k: nat :: from <= k < r.value ==> !OccursAt(s, t, k)
    ensures r.None? ==> forall k: nat :: from <= k ==> !OccursAt(s, t, k)
    decreases |s| - from
  {
    if |s| < from + |t| then None
    else if OccursAt(s, t, from) then Some(from)
    else FindFrom(s, t, from + 1)
  }

  /** Leftmost occurrence of `t` in `s`. */
  function Find(s: string, t: string): (r: Option<nat>)
    ensures r.Some? ==> OccursAt(s, t, r.value)
    ensures r.Some? ==> forall k: nat :: k < r.value ==> !OccursAt(s, t, k)
    ensures r.None? ==> forall k: nat :: !OccursAt(s, t, k)
  {
    FindFrom(s, t, 0)
  }

  /** `t in s` in Python; `s.find(t) != string::npos` in C++. */
  predicate Contains(s: string, t: string) {
    Find(s, t).Some?
  }

  /** An occurrence found in a prefix is still the leftmost one once more text follows. */
  lemma FindExtends(s: string, u: string, t: string)
    requires Find(s, t).Some?
    ensures Find(s + u, t) == Find(s, t)
  {
    var i := Find(s, t).value;
    assert (s + u)[i..i + |t|] == s[i..i + |t|];
    assert OccursAt(s + u, t, i);
    forall k: nat | k < i
      ensures !OccursAt(s + u, t, k)
    {
      assert !OccursAt(s, t, k);
      assert (s + u)[k..k + |t|] == s[k..k + |t|];
    }
  }

  /** Containment survives putting text on either side. */
  lemma ContainsConcat(a: string, b: string, t: string)
    ensures Contains(a, t) ==> Contains(a + b, t)
    ensures Contains(b, t) ==> Contains(a + b, t)
  {
    if Contains(a, t) {
      FindExtends(a, b, t);
    }
    if Contains(b, t) {
      var i := Find(b, t).value;
      assert (a + b)[|a| + i..|a| + i + |t|] == b[i..i + |t|];
      assert OccursAt(a + b, t, |a| + i);
    }
  }

  /** Text that no occurrence of `t` can span: a character `t` does not contain. */
  lemma ContainsAroundChar(a: string, c: char, b: string, t: string)
    requires c !in t
    ensures Contains(a + [c] + b, t) <==> Contains(a, t) || Contains(b, t)
  {
    var s := a + [c] + b;
    ContainsConcat(a + [c], b, t);
    ContainsConcat(a, [c], t);
    if Contains(s, t) {
      var k := Find(s, t).value;
      if k + |t| <= |a| {
        assert s[k..k + |t|] == a[k..k + |t|];
        assert OccursAt(a, t, k);
      } else if k <= |a| {
        OccursAtChar(s, t, k, |a| - k);
      } else {
        var m := k - |a| - 1;
        forall j | 0 <= j < |t|
          ensures t[j] == b[m + j]
        {
          assert t[j] == s[k + j];
        }
        assert b[m..m + |t|] == t;
        assert OccursAt(b, t, m);
      }
    }
  }

  /** Occurrences of `t` cannot start inside a prefix that lacks `t`'s first character. */
  lemma ContainsAfterPrefix(a: string, b: string, t: string)
    requires |t| > 0 && t[0] !in a
    ensures Contains(a + b, t) <==> Contains(b, t)
  {
    ContainsConcat(a, b, t);
    if Contains(a + b, t) {
      var k := Find(a + b, t).value;
      assert (a + b)[k..k + |t|][0] == (a + b)[k] == t[0];
      assert k >= |a|;
      var m := k - |a|;
      forall j | 0 <= j < |t|
        ensures t[j] == b[m + j]
      {
        assert t[j] == (a + b)[k + j];
      }
      assert b[m..m + |t|] == t;
      assert OccursAt(b, t, m);
    }
  }

  /** A string lacking the character `t[j]` does not contain `t`. */
  lemma MissingCharNotContained(s: string, t: string, j: nat)
    requires j < |t| && t[j] !in s
    ensures !Contains(s, t)
  {
  }

  /** `sep.join(parts)` in Python. */
  function Join(parts: seq<string>, sep: string): string
  {
    if |parts| == 0 then ""
    else if |parts| == 1 then parts[0]
    else parts[0] + sep + Join(parts[1..], sep)
  }

  /** The part of `s` before index `i` holds no occurrence when `i` is the leftmost one. */
  lemma NothingBeforeFirst(s: string, t: string, i: nat)
    requires |t| > 0 && i <= |s|
    requires forall k: nat :: k < i ==> !OccursAt(s, t, k)
    ensures !Contains(s[..i], t)
  {
    if Contains(s[..i], t) {
      var k := Find(s[..i], t).value;
      assert s[..i][k..k + |t|] == s[k..k + |t|];
      assert OccursAt(s, t, k);
    }
  }

  /**
   `s.split(sep)` in Python for a non-empty separator: the pieces between the
   leftmost non-overlapping occurrences of `sep`, scanning left to right.
   */
  function Split(s: string, sep: string): (parts: seq<string>)
    requires |sep| > 0
    ensures |parts| >= 1
    ensures parts[0] <= s
    decreases |s|
  {
    match Find(s, sep)
    case None => [s]
    case Some(i) => [s[..i]] + Split(s[i + |sep|..], sep)
  }

  /** The first piece ends at the leftmost occurrence; the second is cut the same way from what follows it. */
  lemma SplitHead(s: string, sep: string)
    requires |sep| > 0
    ensures Find(s, sep).None? ==> Split(s, sep) == [s]
    ensures Find(s, sep).Some? ==>
      var i := Find(s, sep).value;
      && |Split(s, sep)| >= 2
      && Split(s, sep)[0] == s[..i]
      && Split(s, sep)[1] == FirstPiece(s[i + |sep|..], sep)
  {
    if Find(s, sep).Some? {
      var rest := s[Find(s, sep).value + |sep|..];
      assert Split(rest, sep)[0] == FirstPiece(rest, sep);
    }
  }

  /** The text up to the leftmost occurrence of `sep`, or all of it when there is none. */
  function FirstPiece(s: string, sep: string): string
  {
    match Find(s, sep)
    case None => s
    case Some(i) => s[..i]
  }

  /** No piece of a split contains the separator. */
  lemma {:induction false} SplitPiecesFree(s: string, sep: string)
    requires |sep| > 0
    ensures forall k :: 0 <= k < |Split(s, sep)| ==> !Contains(Split(s, sep)[k], sep)
    decreases |s|
  {
    match Find(s, sep)
    case None =>
    case Some(i) =>
      NothingBeforeFirst(s, sep, i);
      SplitPiecesFree(s[i + |sep|..], sep);
  }

  /** Round trip: joining the pieces of a split with the separator restores the text. */
  lemma {:induction false} JoinSplit(s: string, sep: string)
    requires |sep| > 0
    ensures Join(Split(s, sep), sep) == s
    decreases |s|
  {
    match Find(s, sep)
    case None =>
    case Some(i) =>
      var rest := Split(s[i + |sep|..], sep);
      JoinSplit(s[i + |sep|..], sep);
      assert ([s[..i]] + rest)[1..] == rest;
      assert s == s[..i] + s[i..i + |sep|] + s[i + |sep|..];
  }

  /**
   `a` may be followed by `sep` without an occurrence of `sep` starting inside `a`
   (wholly, or straddling the boundary): splitting then cuts exactly after `a`.
   */
  predicate Field(a: string, sep: string) {
    Find(a + sep, sep) == Some(|a|)
  }

  lemma SplitField(a: string, sep: string, b: string)
    requires |sep| > 0 && Field(a, sep)
    ensures Split(a + sep + b, sep) == [a] + Split(b, sep)
  {
    FindExtends(a + sep, b, sep);
    var s := a + sep + b;
    assert s[..|a|] == a;
    assert s[|a| + |sep|..] == b;
  }

  /** Any string free of a one-character separator is a field for it. */
  lemma SingleCharField(a: string, c: char)
    requires c !in a
    ensures Field(a, [c])
  {
    var s := a + [c];
    assert s[|a|..|a| + 1] == [c];
    assert OccursAt(s, [c], |a|);
    forall k: nat | k < |a|
      ensures !OccursAt(s, [c], k)
    {
      assert s[k] == a[k];
    }
  }

  /** Splitting on one character distributes over a concatenation joined by it. */
  lemma {:induction false} SplitConcatChar(a: string, c: char, b: string)
    ensures Split(a + [c] + b, [c]) == Split(a, [c]) + Split(b, [c])
    decreases |a|, 1
  {
    var sep := [c];
    if c !in a {
      SingleCharField(a, c);
      SplitField(a, sep, b);
      MissingCharNotContained(a, sep, 0);
    } else {
      var j :| 0 <= j < |a| && a[j] == c;
      assert a[j..j + 1] == sep;
      assert OccursAt(a, sep, j);
      SplitConcatCharAt(a, c, b, Find(a, sep).value);
    }
  }

  /** The step of `SplitConcatChar` when `c` first occurs in `a` at index `i`. */
  lemma {:induction false} SplitConcatCharAt(a: string, c: char, b: string, i: nat)
    requires Find(a, [c]) == Some(i)
    ensures Split(a + [c] + b, [c]) == Split(a, [c]) + Split(b, [c])
    decreases |a|, 0
  {
    var sep := [c];
    var rest := a[i + 1..];
    var head := [a[..i]];
    var p, q := Split(rest, sep), Split(b, sep);
    assert Split(a + sep + b, sep) == head + (p + q) by {
      SplitAfterFirst(a, sep, b, i);
      SplitConcatChar(rest, c, b);
    }
    assert Split(a, sep) == head + p by {
      SplitAfterFirst(a, sep, b, i);
    }
    assert head + (p + q) == (head + p) + q;
  }

  /** `SplitExtends` for text followed by the separator and more text. */
  lemma SplitAfterFirst(a: string, sep: string, b: string, i: nat)
    requires |sep| > 0 && Find(a, sep) == Some(i)
    ensures Split(a, sep) == [a[..i]] + Split(a[i + |sep|..], sep)
    ensures Split(a + sep + b, sep) == [a[..i]] + Split(a[i + |sep|..] + sep + b, sep)
  {
    var rest := a[i + |sep|..];
    SplitAt(a, sep, i);
    SplitExtends(a, sep + b, sep, i);
    AppendAssoc(a, sep, b);
    AppendAssoc(rest, sep, b);
  }

  /** A split cut at the leftmost occurrence: its first piece, then the split of the rest. */
  lemma SplitAt(s: string, sep: string, i: nat)
    requires |sep| > 0 && Find(s, sep) == Some(i)
    ensures Split(s, sep) == [s[..i]] + Split(s[i + |sep|..], sep)
  {
  }

  /** Text after the first piece does not change where that piece ends. */
  lemma SplitExtends(a: string, u: string, sep: string, i: nat)
    requires |sep| > 0 && Find(a, sep) == Some(i)
    ensures Split(a + u, sep) == [a[..i]] + Split(a[i + |sep|..] + u, sep)
  {
    var s := a + u;
    FindExtends(a, u, sep);
    SplitAt(s, sep, i);
    assert s[..i] == a[..i];
    assert s[i + |sep|..] == a[i + |sep|..] + u;
  }

  /** Every part split on the one-character separator `c`, pieces in order. */
  function SplitAll(parts: seq<string>, c: char): seq<string>
  {
    if |parts| == 0 then [] else Split(parts[0], [c]) + SplitAll(parts[1..], c)
  }

  lemma {:induction false} SplitAllConcat(a: seq<string>, b: seq<string>, c: char)
    ensures SplitAll(a + b, c) == SplitAll(a, c) + SplitAll(b, c)
    decreases |a|
  {
    if |a| > 0 {
      assert (a + b)[1..] == a[1..] + b;
      SplitAllConcat(a[1..], b, c);
    } else {
      assert a + b == b;
    }
  }

  /** Parts free of `c` are left whole. */
  lemma {:induction false} SplitAllWhole(parts: seq<string>, c: char)
    requires forall k :: 0 <= k < |parts| ==> c !in parts[k]
    ensures SplitAll(parts, c) == parts
    decreases |parts|
  {
    if |parts| > 0 {
      MissingCharNotContained(parts[0], [c], 0);
      SplitAllWhole(parts[1..], c);
    }
  }

  /** Splitting a join on one character splits each part in place. */
  lemma {:induction false} SplitJoinChar(parts: seq<string>, c: char)
    requires |parts| >= 1
    ensures Split(Join(parts, [c]), [c]) == SplitAll(parts, c)
    decreases |parts|
  {
    if |parts| > 1 {
      SplitConcatChar(parts[0], c, Join(parts[1..], [c]));
      SplitJoinChar(parts[1..], c);
    } else {
      assert SplitAll(parts[1..], c) == [];
    }
  }

  /** Splitting a join on `c` when only the two middle parts may contain `c`. */
  lemma SplitJoinAround(head: seq<string>, x: string, y: string, tail: seq<string>, c: char)
    requires forall k :: 0 <= k < |head| ==> c !in head[k]
    requires forall k :: 0 <= k < |tail| ==> c !in tail[k]
    ensures Split(Join(head + [x, y] + tail, [c]), [c]) == head + Split(x, [c]) + Split(y, [c]) + tail
  {
    SplitJoinChar(head + [x, y] + tail, c);
    SplitAllAround(head, x, y, tail, c);
  }

  lemma SplitAllAround(head: seq<string>, x: string, y: string, tail: seq<string>, c: char)
    requires forall k :: 0 <= k < |head| ==> c !in head[k]
    requires forall k :: 0 <= k < |tail| ==> c !in tail[k]
    ensures SplitAll(head + [x, y] + tail, c) == head + Split(x, [c]) + Split(y, [c]) + tail
  {
    SplitAllConcat(head + [x, y], tail, c);
    SplitAllConcat(head, [x, y], c);
    SplitAllWhole(head, c);
    SplitAllWhole(tail, c);
    SplitAllPair(x, y, c);
    ConcatAssoc(head, Split(x, [c]), Split(y, [c]), tail);
  }

  lemma AppendAssoc<T>(a: seq<T>, b: seq<T>, c: seq<T>)
    ensures a + (b + c) == a + b + c
  {
  }

  lemma ConcatAssoc<T>(a: seq<T>, b: seq<T>, c: seq<T>, d: seq<T>)
    ensures a + (b + c) + d == a + b + c + d
  {
  }

  lemma SplitAllPair(x: string, y: string, c: char)
    ensures SplitAll([x, y], c) == Split(x, [c]) + Split(y, [c])
  {
    assert [x, y][1..] == [y];
    assert [y][1..] == [];
    assert SplitAll([y], c) == Split(y, [c]) + SplitAll([], c);
    assert Split(y, [c]) + [] == Split(y, [c]);
  }

  /**
   The newline translation of a text-mode pipe in Python's `subprocess`:
   `data.replace("\r\n", "\n").replace("\r", "\n")`. Scanning left to right,
   a CR LF pair and a lone CR each become one LF.
   */
  function Newlines(s: string): (r: string)
    ensures |r| <= |s|
    decreases |s|
  {
    if |s| == 0 then [] else [NewlineChar(s[0])] + Newlines(s[NewlineWidth(s)..])
  }

  /** The character one step of the translation emits: LF for a CR. */
  function NewlineChar(c: char): char {
    if c == '\r' then '\n' else c
  }

  /** How many characters one step of the translation consumes: two for CR LF, else one. */
  function NewlineWidth(s: string): (w: nat)
    requires |s| > 0
    ensures 1 <= w <= |s|
  {
    if |s| > 1 && s[0] == '\r' && s[1] == '\n' then 2 else 1
  }

  /** No carriage return survives the translation. */
  lemma {:induction false} NewlinesDropsCR(s: string)
    ensures forall k :: 0 <= k < |Newlines(s)| ==> Newlines(s)[k] != '\r'
    decreases |s|
  {
    if |s| > 0 {
      NewlinesDropsCR(s[NewlineWidth(s)..]);
    }
  }

  /** Text without a carriage return passes through unchanged. */
  lemma {:induction false} NewlinesNoCR(s: string)
    requires '\r' !in s
    ensures Newlines(s) == s
    decreases |s|
  {
    if |s| > 0 {
      assert '\r' !in s[1..];
      NewlinesNoCR(s[1..]);
    }
  }

  /** Text after a step that does not end in a lone trailing CR does not change that step. */
  lemma NewlinesStep(a: string, b: string)
    requires |a| > 1 || (|a| == 1 && a[0] != '\r')
    ensures (a + b)[0] == a[0] && NewlineWidth(a + b) == NewlineWidth(a)
    ensures (a + b)[NewlineWidth(a)..] == a[NewlineWidth(a)..] + b
  {
    assert (a + b)[0] == a[0];
    if |a| > 1 {
      assert (a + b)[1] == a[1];
    }
  }

  /** Translation works piece by piece when the first piece does not end in a carriage return. */
  lemma {:induction false} NewlinesConcat(a: string, b: string)
    requires |a| == 0 || a[|a| - 1] != '\r'
    ensures Newlines(a + b) == Newlines(a) + Newlines(b)
    decreases |a|
  {
    if |a| == 0 {
      assert a + b == b;
    } else {
      var w := NewlineWidth(a);
      NewlinesStep(a, b);
      NewlinesConcat(a[w..], b);
      var h, x, y := [NewlineChar(a[0])], Newlines(a[w..]), Newlines(b);
      assert Newlines(a + b) == h + (x + y);
      assert h + (x + y) == (h + x) + y;
    }
  }

  /** A carriage return ending the first piece pairs up with a line feed starting the second. */
  lemma {:induction false} NewlinesConcatCR(a: string, b: string)
    requires |a| > 0 && a[|a| - 1] == '\r'
    requires |b| > 0 && b[0] == '\n'
    ensures Newlines(a + b) == Newlines(a) + Newlines(b[1..])
    decreases |a|
  {
    if |a| == 1 {
      var ab := a + b;
      assert ab[0] == '\r' && ab[1] == '\n' && ab[2..] == b[1..];
      assert Newlines(a) == ['\n'] + Newlines([]);
    } else {
      var w := NewlineWidth(a);
      NewlinesStep(a, b);
      NewlinesConcatCR(a[w..], b);
      var h, x, y := [NewlineChar(a[0])], Newlines(a[w..]), Newlines(b[1..]);
      assert Newlines(a + b) == h + (x + y);
      assert h + (x + y) == (h + x) + y;
    }
  }

  /** Python `str.isspace` for one character (the complete Unicode list). */
  predicate IsSpace(c: char) {
    || c == ' '
    || '\t' <= c <= '\r'
    || '\U{1C}' <= c <= '\U{1F}'
    || c == '\U{85}' || c == '\U{A0}' || c == '\U{1680}'
    || '\U{2000}' <= c <= '\U{200A}'
    || c == '\U{2028}' || c == '\U{2029}' || c == '\U{202F}' || c == '\U{205F}'
    || c == '\U{3000}'
  }

  /** The end of the whitespace run that starts at offset `i`. */
  function SpaceRunEnd(s: string, i: nat): (j: nat)
    requires i <= |s|
    ensures i <= j <= |s|
    ensures forall k :: i <= k < j ==> IsSpace(s[k])
    ensures j == |s| || !IsSpace(s[j])
    decreases |s| - i
  {
    if i < |s| && IsSpace(s[i]) then SpaceRunEnd(s, i + 1) else i
  }

  /** The start of the whitespace run that ends at offset `j`. */
  function SpaceRunStart(s: string, j: nat): (i: nat)
    requires j <= |s|
    ensures i <= j
    ensures forall k :: i <= k < j ==> IsSpace(s[k])
    ensures i == 0 || !IsSpace(s[i - 1])
  {
    if j > 0 && IsSpace(s[j - 1]) then SpaceRunStart(s, j - 1) else j
  }

  /** `s.rstrip()`: the prefix left after dropping trailing whitespace. */
  function StripRight(s: string): (r: string)
    ensures |r| <= |s| && r == s[..|r|]
    ensures forall k :: |r| <= k < |s| ==> IsSpace(s[k])
    ensures r == [] || !IsSpace(r[|r| - 1])
  {
    s[..SpaceRunStart(s, |s|)]
  }

  /** The prefix `rstrip` keeps is the only one ending in a non-space with only whitespace after it. */
  lemma StripRightUnique(s: string, n: nat)
    requires n <= |s|
    requires forall k :: n <= k < |s| ==> IsSpace(s[k])
    requires n == 0 || !IsSpace(s[n - 1])
    ensures StripRight(s) == s[..n]
  {
    var r := StripRight(s);
    assert 0 < n ==> IsSpace(s[n - 1]) || n <= |r|;
    assert 0 < |r| ==> r[|r| - 1] == s[|r| - 1];
  }

  /** Trailing whitespace is stripped past; text ending in a non-space stops it. */
  lemma StripRightConcat(a: string, b: string)
    requires |a| > 0 && !IsSpace(a[|a| - 1])
    ensures StripRight(a + b) == a + StripRight(b)
  {
    var rb := StripRight(b);
    var n := |a| + |rb|;
    var ab := a + b;
    forall k | n <= k < |ab|
      ensures IsSpace(ab[k])
    {
      assert ab[k] == b[k - |a|];
    }
    assert ab[n - 1] == if rb == [] then a[|a| - 1] else rb[|rb| - 1];
    StripRightUnique(ab, n);
    assert ab[..n] == a + rb;
  }

  /** Trailing whitespace after the last non-space is all that stripping removes. */
  lemma StripRightSpaceEnd(s: string, c: char)
    requires IsSpace(c)
    ensures StripRight(s + [c]) == StripRight(s)
  {
    var r, t := StripRight(s), s + [c];
    forall k | |r| <= k < |t|
      ensures IsSpace(t[k])
    {
      if k < |s| {
        assert t[k] == s[k];
      }
    }
    assert |r| > 0 ==> t[|r| - 1] == r[|r| - 1];
    StripRightUnique(t, |r|);
    assert t[..|r|] == r;
  }

  /**
   `s.strip()`: the slice of `s` starting where its leading whitespace run ends,
   with only whitespace before and after it, and neither starting nor ending with
   whitespace.
   */
  function Strip(s: string): (r: string)
    ensures r == [] || (!IsSpace(r[0]) && !IsSpace(r[|r| - 1]))
    ensures SpaceRunEnd(s, 0) + |r| <= |s|
    ensures r == s[SpaceRunEnd(s, 0)..SpaceRunEnd(s, 0) + |r|]
    ensures forall k :: 0 <= k < SpaceRunEnd(s, 0) ==> IsSpace(s[k])
    ensures forall k :: SpaceRunEnd(s, 0) + |r| <= k < |s| ==> IsSpace(s[k])
  {
    var i := SpaceRunEnd(s, 0);
    var j := SpaceRunStart(s, |s|);
    if j <= i then [] else s[i..j]
  }

  /** Stripping text that starts with a non-space only trims its end. */
  lemma StripNonSpaceStart(s: string)
    requires |s| > 0 && !IsSpace(s[0])
    ensures Strip(s) == StripRight(s)
  {
    assert SpaceRunEnd(s, 0) == 0;
  }

  /** Stripping only removes characters: one absent before is absent after. */
  lemma StripAbsent(s: string, c: char)
    requires forall k :: 0 <= k < |s| ==> s[k] != c
    ensures forall k :: 0 <= k < |Strip(s)| ==> Strip(s)[k] != c
  {
    var r := Strip(s);
    var i := SpaceRunEnd(s, 0);
    forall k | 0 <= k < |r|
      ensures r[k] != c
    {
      assert r[k] == s[i + k];
    }
  }

  /** Stripping leaves text alone once it starts and ends with non-whitespace. */
  lemma StripTrimmed(s: string)
    requires s == [] || (!IsSpace(s[0]) && !IsSpace(s[|s| - 1]))
    ensures Strip(s) == s
  {
    assert SpaceRunEnd(s, 0) == 0;
    assert SpaceRunStart(s, |s|) == |s|;
  }

  /** Stripping is idempotent. */
  lemma StripIdempotent(s: string)
    ensures Strip(Strip(s)) == Strip(s)
  {
    StripTrimmed(Strip(s));
  }

  /** The "C" locale's `tolower`: only 'A'..'Z' change. */
  function ToLowerChar(c: char): char {
    if 'A' <= c <= 'Z' then (c as int + 32) as char else c
  }

  /** `transform(s.begin(), s.end(), s.begin(), ::tolower)`. */
  function Lower(s: string): (r: string)
    ensures |r| == |s|
    ensures forall i :: 0 <= i < |s| ==> r[i] == ToLowerChar(s[i])
  {
    seq(|s|, i requires 0 <= i < |s| => ToLowerChar(s[i]))
  }

  lemma LowerConcat(a: string, b: string)
    ensures Lower(a + b) == Lower(a) + Lower(b)
  {
    assert forall i :: 0 <= i < |a + b| ==> Lower(a + b)[i] == (Lower(a) + Lower(b))[i];
  }
}
